=== FILE: README.md ===
# Todo list view layer: verified model of its list bookkeeping

The system is the browser side of a multi-user todo app. It has a private list per user and a realtime public feed, both served by a hosted GraphQL backend. Most of the code is React and Apollo glue. This project models the pure bookkeeping under that glue as Dafny functions over immutable values, and proves what that bookkeeping guarantees:

- **Private list** (`PrivateList.dfy`). The client-side status filter (`all` / `active` / `completed`). The cache rewrite after the `clearCompleted` mutation.
- **Todo item** (`TodoItem.dfy`). The `toggleTodo` variables and optimistic response. The toggle cache rewrite, which maps over the list and spreads the returned row over the matching entries. The delete cache rewrite, which filters out one id.
- **Public feed** (`PublicFeed.dfy`). The pagination state `{todos, oldestCursor, newestCursor, newCount, olderAvailable, error}` and its transitions:
  - initialisation from the latest public todo;
  - the cursor resync that runs on every render;
  - load-older and load-new;
  - realtime arrival;
  - the banner and the bottom label.

Shared pieces:

- `TodoModel.dfy` holds the row types.
- `Seqs.dfy` holds an order-preserving `Filter` and the sub-sequence relation, with their lemmas.
- `Wrappers.dfy` holds `Option` and `Result`.

Every backend or cache answer is a parameter. That covers a query page, a mutation result, the cached list (absent when `readQuery` finds nothing) and the pushed latest todo. Each handler is one atomic step.

The model follows the code, including its edges:

- **The toggle `update` reads the mutation result lazily.** It reads `data` only inside the mapping callback. A missing result therefore fails only when some cached row has the toggled id. An empty `returning` spreads `undefined`, which leaves the matched row as it was.
- **Load-new can throw after its setters have run.** Both setters (list and counter) run before `data.todos[0].id` is read. An empty result therefore resets the counter and then throws. The network-status check is skipped.
- **The render resync overwrites both cursors on every render when the list is non-empty.** A realtime arrival's cursor bump is therefore undone by the next render (`RenderUndoesArrivalBump`). On an empty list the bump persists. A load-new issued while the list is still empty then asks only for ids above the pushed todo, so it cannot return it (`ArrivalOnEmptyFeedSkipsPushedTodo`). Once a non-empty load-older fills the list, the next render lowers the newer cursor below the pushed id again, and a load-new can fetch the todo (`PushedTodoFetchedOnceListFills`).
- **The "Load older" click is not guarded by `olderAvailable`.** `LoadOlder` has no precondition. Once `olderAvailable` is false it never becomes true again (`OlderUnavailableIsPermanent`).

Further consequences of the code:

- A feed mounted with no latest todo starts with both cursors at 0 (`TodoPublicList.tsx:28-29`). Its load-older therefore asks only for ids below 0.
- An empty load-older changes only `olderAvailable`, and with it the label, and, on network status 8, the error flag. A click on the control at `:149` still re-runs the query.

## Model

| member | source | states |
|---|---|---|
| PrivateList.FilterTodos | src/components/Todo/TodoPrivateList.tsx:66-71 | `active` keeps every uncompleted row and no completed one, as often as the list holds it and in list order. `completed` is the mirror image. Any other filter string returns the list unchanged. |
| PrivateList.DefaultFilterShowsAll | src/components/Todo/TodoPrivateList.tsx:34 | The initial filter `all` displays the whole list. |
| PrivateList.FilterPartitionsList | src/components/Todo/TodoPrivateList.tsx:66-71 | The `active` and `completed` views partition the list. Their multisets add up to the list's, their lengths sum to its length, and no row is in both. |
| PrivateList.FilterTodosIdempotent | src/components/Todo/TodoPrivateList.tsx:66-71 | Applying any filter to its own result changes nothing. |
| PrivateList.ClearCompleted | src/components/Todo/TodoPrivateList.tsx:44 | The rewritten list has no completed row. It keeps every uncompleted row as often as the cached list holds it, and it is an order-preserving sub-sequence of the cached list. |
| PrivateList.ClearCompletedUpdate | src/components/Todo/TodoPrivateList.tsx:42-51 | A missing cached list is an error. Otherwise the list written back equals the `active` view of the cached list. |
| PrivateList.ClearCompletedIsActiveFilter | src/components/Todo/TodoPrivateList.tsx:44 | The clear rewrite (`!is_completed`) keeps exactly the rows the `active` filter (`!== true`, line 68) shows. |
| PrivateList.ClearCompletedIdempotent | src/components/Todo/TodoPrivateList.tsx:44 | A second clear-completed rewrite changes nothing. |
| PrivateList.CompletedViewEmptyAfterClear | src/components/Todo/TodoPrivateList.tsx:69-70 | After clear-completed the `completed` view is empty. |
| TodoItem.ToggleVars | src/components/Todo/TodoItem.tsx:64 | The mutation targets the todo's id and requests the opposite of its current completion. |
| TodoItem.OptimisticResponse | src/components/Todo/TodoItem.tsx:65-79 | The assumed response reports one affected row. That row has the todo's id and title and the completion the variables request. |
| TodoItem.Merge | src/components/Todo/TodoItem.tsx:50 | In the spread merge, the returned row's id, title and completion override the cached ones. The cached `created_at`, absent from the row, is kept. |
| TodoItem.MergeFirst | src/components/Todo/TodoItem.tsx:50 | With a returned row, the row's id, title and completion override the cached ones, and `createdAt` is kept. With an empty `returning`, `returning[0]` is `undefined`, whose spread adds no fields, so the cached row is unchanged. |
| TodoItem.ToggleRewrite | src/components/Todo/TodoItem.tsx:48-54 | The rewrite keeps the list's length and order. Rows with another id are unchanged. Rows with the toggled id get the first returned row merged over them, or stay as they were when nothing was returned. |
| TodoItem.ToggleRewriteAbsentId | src/components/Todo/TodoItem.tsx:48-54 | Toggling an id that no cached row carries leaves the cached list unchanged. |
| TodoItem.ToggleUpdate | src/components/Todo/TodoItem.tsx:43-60 | A missing cached list is an error. A missing mutation result is an error exactly when some row matches the id, and otherwise leaves the list as it was. A present result writes back the toggle rewrite. |
| TodoItem.OptimisticToggleTwice | src/components/Todo/TodoItem.tsx:64-79 | The optimistic row negates the completion. Toggling that row optimistically again restores the original row, `created_at` included. |
| TodoItem.ToggleTwiceRestoresCache | src/components/Todo/TodoItem.tsx:48-79 | Two optimistic toggles in a row restore the cached list, the second issued from the row the first produced. This needs the cached rows with that id to agree with the item. |
| TodoItem.DeleteRewrite | src/components/Todo/TodoItem.tsx:86 | The rewrite removes every row with the deleted id and no other row. It keeps the others' multiplicities and relative order. |
| TodoItem.DeleteAbsentIdUnchanged | src/components/Todo/TodoItem.tsx:86 | Deleting an id not present leaves the cached list unchanged. |
| TodoItem.DeleteUpdate | src/components/Todo/TodoItem.tsx:84-90 | A missing cached list is the only error. Otherwise the list written back is the delete rewrite of the cached list. It has no row with the id, keeps every other row as often as the cached list holds it, and is a sub-sequence of the cached list. |
| PublicFeed.Init | src/components/Todo/TodoPublicList.tsx:20-29 | A new feed has an empty list, a zero counter and no error. With a latest todo: older cursor `id+1`, newer cursor `id`, older todos advertised. Without one: both cursors 0 and nothing advertised. |
| PublicFeed.Render | src/components/Todo/TodoPublicList.tsx:33-36 | A non-empty list forces the older cursor to its last id and the newer cursor to its first id. An empty list changes nothing. No other field changes. |
| PublicFeed.LoadOlder | src/components/Todo/TodoPublicList.tsx:57-78 | A non-empty page is appended and the older cursor moves to its last id. An empty page leaves the list and stops advertising older todos. Status 8 sets the error flag. The newer cursor and the counter are untouched. There is no precondition on `olderAvailable`. |
| PublicFeed.LoadNew | src/components/Todo/TodoPublicList.tsx:102-122 | The result is prepended and the counter reset. A non-empty result moves the newer cursor to its first id, and status 8 then sets the error flag. An empty result throws, with only the counter reset. |
| PublicFeed.Arrival | src/components/Todo/TodoPublicList.tsx:125-131 | A pushed id above the newer cursor raises the counter by exactly one and moves the cursor to it, leaving the list alone. Otherwise nothing changes. |
| PublicFeed.BannerVisible | src/components/Todo/TodoPublicList.tsx:136-140 | The "New tasks have arrived!" banner is shown exactly when `newCount != 0`. What that count means (raised by arrivals, reset by load-new) is stated by `BannerFollowsArrivalsAndLoads`. |
| PublicFeed.LoadOlderLabel | src/components/Todo/TodoPublicList.tsx:149-150 | The label reads "Load older tasks" iff older todos are advertised, and "No more public tasks!" otherwise. |
| PublicFeed.InitEstablishesInvariant | src/components/Todo/TodoPublicList.tsx:20-29 | A freshly mounted feed satisfies the feed invariant. |
| PublicFeed.RenderIdempotent | src/components/Todo/TodoPublicList.tsx:33-36 | Re-rendering without a state change leaves the cursors where the first render put them. |
| PublicFeed.LoadOlderMovesCursorDown | src/components/Todo/TodoPublicList.tsx:57-70 | If the backend returns only ids below the request cursor, a non-empty page moves the older cursor strictly down. |
| PublicFeed.LoadOlderPageIsFresh | src/components/Todo/TodoPublicList.tsx:62-70 | Under the feed invariant, an honest older page repeats no displayed id. |
| PublicFeed.LoadOlderPreservesInvariant | src/components/Todo/TodoPublicList.tsx:62-78 | An honestly answered load-older keeps the list newest-first and between the cursors. The appended page sits below every displayed id, and the older cursor moves to the page's smallest id. |
| PublicFeed.LoadNewPreservesInvariant | src/components/Todo/TodoPublicList.tsx:108-122 | An honestly answered load-new keeps the feed invariant, including when an empty result throws. The prepended rows sit above every displayed id, and the newer cursor moves to the largest. |
| PublicFeed.ApplyPreservesInvariant | src/components/Todo/TodoPublicList.tsx:33-131 | Every handler keeps the list newest-first and between the cursors, provided the backend keeps its query promises. |
| PublicFeed.RunPreservesInvariant | src/components/Todo/TodoPublicList.tsx:33-131 | Any sequence of honestly answered loads, arrivals and renders keeps the feed invariant. |
| PublicFeed.OlderUnavailableIsPermanent | src/components/Todo/TodoPublicList.tsx:71-73 | Once older todos are no longer advertised, no sequence of events advertises them again, and the label stays "No more public tasks!". |
| PublicFeed.ErrorIsSticky | src/components/Todo/TodoPublicList.tsx:75-78 | Once the error flag is set, no sequence of events clears it. |
| PublicFeed.BannerFollowsArrivalsAndLoads | src/components/Todo/TodoPublicList.tsx:125-140 | An arrival with a new id makes the "New tasks have arrived!" banner visible. Any load-new hides it, even one that throws. |
| PublicFeed.RenderUndoesArrivalBump | src/components/Todo/TodoPublicList.tsx:125-131 | On a non-empty list, the render after an arrival sets the newer cursor back to the first displayed id. |
| PublicFeed.ArrivalOnEmptyFeedSkipsPushedTodo | src/components/Todo/TodoPublicList.tsx:125-131 | On an empty list the arrival's cursor bump survives the render. An honest load-new issued while the list is still empty therefore returns no row with the pushed todo's id. |
| PublicFeed.PushedTodoFetchedOnceListFills | src/components/Todo/TodoPublicList.tsx:33-36 | After such a bump, a non-empty honest load-older followed by a render puts the newer cursor back below the pushed id. A load-new returning the pushed todo is then honest and displays it. |

The feed invariant (`FeedInvariant`) says three things:

- the displayed ids strictly decrease;
- every displayed id lies between `oldestCursor` and `newestCursor`;
- `oldestCursor <= newestCursor + 1`.

"Honest" means the backend keeps the promises of its queries:

- load-older returns at most 7 rows, newest first, with ids below the cursor it was sent;
- load-new returns rows newest first, with ids above the cursor it was sent.

## Left out

- The Apollo client, the GraphQL query strings, the subscription transport and the network are not modelled. Their answers are parameters. Query ordering by `created_at` is represented only as the assumption that ids come back newest first.
- React hooks, JSX rendering, `console.log` and event plumbing (`preventDefault`, `stopPropagation`, `onChange`) are not modelled. Only the state each handler produces is.
- Concurrent load-older and load-new callbacks are not interleaved: each handler is one atomic step.
- Rolling back an optimistic overlay when a mutation fails is done inside the client library, so it is not modelled.
- The mutations themselves (`deleteCompleted()`, `todoDelete({id})`, `todoUpdate(...)`) run on the backend. Only their variables, the optimistic response and the cache callbacks are modelled.
- The loading and error branches of both lists and of the subscription wrapper are UI only. So is the wrapper's choice of the first pushed row as `latestTodo`. `Arrival` and `Init` take that `Option` directly.
- `TodoPublicWrapper.tsx` is pure composition with no logic. The components `TodoFilters`, `TodoInput` and `TaskItem` are not part of this model.
- The first load-older on mount is not built into `Init`. It is simply the first `LoadOlderEvent` of a run.
- PublicFeed.LoadNew: does not model `data` or `data.todos` being null (the `data && data.todos` guard), because query results are taken to always carry a list.
- PublicFeed.LoadOlder: does not model `data.todos` being null, for the same reason.
- PrivateList.ClearCompletedUpdate: does not model a cached result whose `todos` field is null (`existingTodos!.todos!`). Only a missing cached result is an error.
- The banner's count text `New tasks have arrived! (n)` is not modelled. Only its visibility (`BannerVisible`, `newCount != 0`) is.
- Ids are unbounded integers. JavaScript numbers would lose precision above 2^53, which `id + 1` in `Init` could in principle reach.

=== FILE: PrivateList.dfy ===
/** The private todo list: its client-side status filter and the cache rewrite
    that follows the `clearCompleted` mutation. */
module PrivateList {
  import opened Wrappers
  import opened Seqs
  import opened TodoModel

  /** The filter the list starts with. */
  const DefaultFilter: string := "all"

  /** The `active` test compares against `true` with `!==`. */
  predicate ActiveTest(t: Todo) { t.isCompleted != true }

  /** The `completed` test compares against `true` with `===`. */
  predicate CompletedTest(t: Todo) { t.isCompleted == true }

  /** The clear-completed rewrite keeps a row when `!t.is_completed`. */
  predicate KeptByClear(t: Todo) { !t.isCompleted }

  /** The rows the list displays for the selected filter. Only the two
      strings "active" and "completed" select; every other value shows the
      whole list. */
  function FilterTodos(todos: seq<Todo>, filter: string): (r: seq<Todo>)
    ensures IsSubsequence(r, todos)
    ensures filter == "active" ==>
      forall t :: multiset(r)[t] == if t.isCompleted then 0 else multiset(todos)[t]
    ensures filter == "completed" ==>
      forall t :: multiset(r)[t] == if t.isCompleted then multiset(todos)[t] else 0
    ensures filter != "active" && filter != "completed" ==> r == todos
  {
    if filter == "active" then Filter(todos, ActiveTest)
    else if filter == "completed" then Filter(todos, CompletedTest)
    else
      SubsequenceReflexive(todos);
      todos
  }

  /** The list written back to the cache after `clearCompleted`: every
      completed row is gone and every other row stays, in order. */
  function ClearCompleted(todos: seq<Todo>): (r: seq<Todo>)
    ensures forall t :: t in r ==> !t.isCompleted
    ensures forall t :: t in todos && !t.isCompleted ==> t in r
    ensures forall t :: multiset(r)[t] == if t.isCompleted then 0 else multiset(todos)[t]
    ensures IsSubsequence(r, todos)
  {
    Filter(todos, KeptByClear)
  }

  /** The `update` callback of the `clearCompleted` mutation: it reads the
      cached list (reading `.todos` of a `null` cache result throws a
      `TypeError`) and writes back the rewritten one. */
  function ClearCompletedUpdate(cached: Option<seq<Todo>>): (r: Result<seq<Todo>, CacheError>)
    ensures cached.None? <==> r == Err(NoCachedList)
    ensures r.Ok? ==> forall t :: t in r.value ==> !t.isCompleted
    ensures r.Ok? ==> IsSubsequence(r.value, cached.value)
    ensures cached.Some? ==> r == Ok(FilterTodos(cached.value, "active"))
  {
    match cached
    case None => Err(NoCachedList)
    case Some(todos) =>
      ClearCompletedIsActiveFilter(todos);
      Ok(ClearCompleted(todos))
  }

  /** The `active` and `completed` views split the list: every row is in
      exactly one of them, as often as it is in the list. */
  lemma FilterPartitionsList(todos: seq<Todo>)
    ensures multiset(FilterTodos(todos, "active")) + multiset(FilterTodos(todos, "completed"))
            == multiset(todos)
    ensures |FilterTodos(todos, "active")| + |FilterTodos(todos, "completed")| == |todos|
    ensures forall t :: !(t in FilterTodos(todos, "active") && t in FilterTodos(todos, "completed"))
  {
    FilterPartition(todos, ActiveTest, CompletedTest);
  }

  /** Selecting the same filter twice shows what selecting it once shows. */
  lemma FilterTodosIdempotent(todos: seq<Todo>, filter: string)
    ensures FilterTodos(FilterTodos(todos, filter), filter) == FilterTodos(todos, filter)
  {
    if filter == "active" {
      FilterIdempotent(todos, ActiveTest);
    } else if filter == "completed" {
      FilterIdempotent(todos, CompletedTest);
    }
  }

  /** The default filter shows every row. */
  lemma DefaultFilterShowsAll(todos: seq<Todo>)
    ensures FilterTodos(todos, DefaultFilter) == todos
  {
  }

  /** Clearing completed rows leaves exactly what the `active` view shows. */
  lemma ClearCompletedIsActiveFilter(todos: seq<Todo>)
    ensures ClearCompleted(todos) == FilterTodos(todos, "active")
  {
    FilterExtensional(todos, KeptByClear, ActiveTest);
  }

  /** A second clear-completed rewrite changes nothing. */
  lemma ClearCompletedIdempotent(todos: seq<Todo>)
    ensures ClearCompleted(ClearCompleted(todos)) == ClearCompleted(todos)
  {
    FilterIdempotent(todos, KeptByClear);
  }

  /** After clear-completed the `completed` view is empty. */
  lemma CompletedViewEmptyAfterClear(todos: seq<Todo>)
    ensures FilterTodos(ClearCompleted(todos), "completed") == []
  {
  }
}

=== FILE: PublicFeed.dfy ===
/** The public feed: the pagination state of one mounted feed and the
    transitions its handlers perform. Every backend answer is a parameter. */
module PublicFeed {
  import opened Wrappers

  /** A public todo as the feed displays it. */
  datatype PubTodo = PubTodo(id: int, title: string, userName: string)

  /** The component state together with the two cursor refs. */
  datatype FeedState = FeedState(
    todos: seq<PubTodo>,
    oldestCursor: int,      // ids below it are requested by load-older
    newestCursor: int,      // ids above it are requested by load-new
    newCount: nat,          // realtime arrivals not yet merged
    olderAvailable: bool,
    error: bool)

  /** The row limit of the load-older query. */
  const OlderPageLimit: nat := 7

  /** The network status the handlers treat as an error. */
  const ErrorNetworkStatus: int := 8

  const LoadOlderText: string := "Load older tasks"
  const NoMoreText: string := "No more public tasks!"

  /** Why load-new throws: it reads the id of the first row of an empty result. */
  datatype Fault = EmptyNewPage

  /** The result of load-new: the state after every setter that ran, and
      whether the handler threw before finishing. */
  datatype LoadNewOutcome =
    | Settled(state: FeedState)
    | Threw(state: FeedState, fault: Fault)

  /** The state of a freshly mounted feed, seeded from the latest public todo
      the subscription reported, if any. */
  function Init(latest: Option<PubTodo>): (s: FeedState)
    ensures s.todos == [] && s.newCount == 0 && !s.error
    ensures s.olderAvailable <==> latest.Some?
    ensures latest.Some? ==>
      s.oldestCursor == latest.value.id + 1 && s.newestCursor == latest.value.id
    ensures latest.None? ==> s.oldestCursor == 0 && s.newestCursor == 0
  {
    match latest
    case Some(t) => FeedState([], t.id + 1, t.id, 0, true, false)
    case None => FeedState([], 0, 0, 0, false, false)
  }

  /** The cursor resync every render performs: a non-empty list pins the older
      cursor to its last id and the newer cursor to its first id,
      overwriting whatever the handlers stored. */
  function Render(s: FeedState): (r: FeedState)
    ensures r.todos == s.todos && r.newCount == s.newCount
    ensures r.olderAvailable == s.olderAvailable && r.error == s.error
    ensures |s.todos| == 0 ==> r == s
    ensures |s.todos| > 0 ==>
      r.oldestCursor == s.todos[|s.todos| - 1].id && r.newestCursor == s.todos[0].id
  {
    if |s.todos| > 0 then
      s.(oldestCursor := s.todos[|s.todos| - 1].id, newestCursor := s.todos[0].id)
    else s
  }

  /** Load-older, given the page the query returned for `s.oldestCursor`. It
      runs whether or not older todos are still advertised. */
  function LoadOlder(s: FeedState, page: seq<PubTodo>, networkStatus: int): (r: FeedState)
    ensures |page| > 0 ==>
      r.todos == s.todos + page && r.oldestCursor == page[|page| - 1].id
      && r.olderAvailable == s.olderAvailable
    ensures |page| == 0 ==>
      r.todos == s.todos && r.oldestCursor == s.oldestCursor && !r.olderAvailable
    ensures r.newestCursor == s.newestCursor && r.newCount == s.newCount
    ensures r.error <==> s.error || networkStatus == ErrorNetworkStatus
  {
    var loaded :=
      if |page| > 0 then s.(todos := s.todos + page, oldestCursor := page[|page| - 1].id)
      else s.(olderAvailable := false);
    if networkStatus == ErrorNetworkStatus then loaded.(error := true) else loaded
  }

  /** Load-new, given the rows the query returned for `s.newestCursor`. The
      setters for the list and the counter run before the first row's id is
      read, so an empty result still resets the counter and then throws,
      skipping the network-status check. */
  function LoadNew(s: FeedState, result: seq<PubTodo>, networkStatus: int): (o: LoadNewOutcome)
    ensures o.Threw? <==> |result| == 0
    ensures o.state.todos == result + s.todos && o.state.newCount == 0
    ensures o.state.oldestCursor == s.oldestCursor
    ensures o.state.olderAvailable == s.olderAvailable
    ensures |result| > 0 ==> o.state.newestCursor == result[0].id
    ensures |result| > 0 ==> (o.state.error <==> s.error || networkStatus == ErrorNetworkStatus)
    ensures |result| == 0 ==> o.state == s.(newCount := 0)
  {
    var merged := s.(todos := result + s.todos, newCount := 0);
    if |result| == 0 then
      assert result + s.todos == s.todos;
      Threw(merged, EmptyNewPage)
    else
      var loaded := merged.(newestCursor := result[0].id);
      Settled(if networkStatus == ErrorNetworkStatus then loaded.(error := true) else loaded)
  }

  /** The effect run when the subscription reports a latest public todo: an id
      above the newer cursor bumps the counter and moves the cursor to it,
      without displaying the todo. */
  function Arrival(s: FeedState, latest: Option<PubTodo>): (r: FeedState)
    ensures latest.Some? && latest.value.id > s.newestCursor ==>
      r.newCount == s.newCount + 1 && r.newestCursor == latest.value.id
      && r.todos == s.todos && r.oldestCursor == s.oldestCursor
      && r.olderAvailable == s.olderAvailable && r.error == s.error
    ensures !(latest.Some? && latest.value.id > s.newestCursor) ==> r == s
  {
    if latest.Some? && latest.value.id > s.newestCursor then
      s.(newCount := s.newCount + 1, newestCursor := latest.value.id)
    else s
  }

  /** Whether the "New tasks have arrived!" banner is shown. */
  predicate BannerVisible(s: FeedState)
    ensures BannerVisible(s) <==> s.newCount > 0
  {
    s.newCount != 0
  }

  /** The text of the bottom load-older control. */
  function LoadOlderLabel(s: FeedState): (text: string)
    ensures text == LoadOlderText <==> s.olderAvailable
    ensures text == NoMoreText <==> !s.olderAvailable
  {
    if s.olderAvailable then LoadOlderText else NoMoreText
  }

  // ---------------------------------------------------------------------------
  // Assumptions about the backend and the invariant they keep

  /** Ids strictly decrease along the list (newest first). */
  predicate DescendingIds(ts: seq<PubTodo>)
  {
    forall i, j :: 0 <= i < j < |ts| ==> ts[i].id > ts[j].id
  }

  /** What the load-older query promises: at most seven rows, newest first,
      every id below the cursor it was sent. */
  predicate OlderPageHonest(s: FeedState, page: seq<PubTodo>)
  {
    && |page| <= OlderPageLimit
    && DescendingIds(page)
    && forall i :: 0 <= i < |page| ==> page[i].id < s.oldestCursor
  }

  /** What the load-new query promises: newest first, every id above the
      cursor it was sent. */
  predicate NewPageHonest(s: FeedState, result: seq<PubTodo>)
  {
    && DescendingIds(result)
    && forall i :: 0 <= i < |result| ==> result[i].id > s.newestCursor
  }

  /** The displayed list is newest first and lies between the two cursors. */
  predicate FeedInvariant(s: FeedState)
  {
    && DescendingIds(s.todos)
    && s.oldestCursor <= s.newestCursor + 1
    && forall i :: 0 <= i < |s.todos| ==>
         s.oldestCursor <= s.todos[i].id <= s.newestCursor
  }

  /** Something that happens to a mounted feed. */
  datatype Event =
    | LoadOlderEvent(page: seq<PubTodo>, networkStatus: int)
    | LoadNewEvent(result: seq<PubTodo>, networkStatus: int)
    | ArrivalEvent(latest: Option<PubTodo>)
    | RenderEvent

  /** The state after an event; a load-new that throws keeps the state its
      setters produced. */
  function Apply(s: FeedState, e: Event): FeedState
  {
    match e
    case LoadOlderEvent(page, status) => LoadOlder(s, page, status)
    case LoadNewEvent(result, status) => LoadNew(s, result, status).state
    case ArrivalEvent(latest) => Arrival(s, latest)
    case RenderEvent => Render(s)
  }

  /** The backend answered the event as its queries promise. */
  predicate Honest(s: FeedState, e: Event)
  {
    match e
    case LoadOlderEvent(page, _) => OlderPageHonest(s, page)
    case LoadNewEvent(result, _) => NewPageHonest(s, result)
    case ArrivalEvent(_) => true
    case RenderEvent => true
  }

  /** The state after a sequence of events, one at a time. */
  function Run(s: FeedState, events: seq<Event>): FeedState
    decreases |events|
  {
    if |events| == 0 then s else Run(Apply(s, events[0]), events[1..])
  }

  /** Every event of the sequence is answered honestly in the state it meets. */
  predicate HonestRun(s: FeedState, events: seq<Event>)
    decreases |events|
  {
    |events| == 0 || (Honest(s, events[0]) && HonestRun(Apply(s, events[0]), events[1..]))
  }

  // ---------------------------------------------------------------------------
  // Lemmas

  /** A freshly mounted feed satisfies the invariant. */
  lemma InitEstablishesInvariant(latest: Option<PubTodo>)
    ensures FeedInvariant(Init(latest))
  {
  }

  /** A second render changes nothing. */
  lemma RenderIdempotent(s: FeedState)
    ensures Render(Render(s)) == Render(s)
  {
  }

  /** An honest non-empty older page moves the older cursor strictly down. */
  lemma LoadOlderMovesCursorDown(s: FeedState, page: seq<PubTodo>, networkStatus: int)
    requires OlderPageHonest(s, page) && |page| > 0
    ensures LoadOlder(s, page, networkStatus).oldestCursor < s.oldestCursor
  {
    assert page[|page| - 1].id < s.oldestCursor;
  }

  /** Under the invariant, an honest older page holds no id already displayed. */
  lemma LoadOlderPageIsFresh(s: FeedState, page: seq<PubTodo>)
    requires FeedInvariant(s) && OlderPageHonest(s, page)
    ensures forall i, j :: 0 <= i < |page| && 0 <= j < |s.todos| ==> page[i].id != s.todos[j].id
  {
  }

  /** Joining two newest-first lists, every id of the first above every id
      of the second, gives a newest-first list. */
  lemma ConcatDescending(a: seq<PubTodo>, b: seq<PubTodo>)
    requires DescendingIds(a) && DescendingIds(b)
    requires forall i, j :: 0 <= i < |a| && 0 <= j < |b| ==> a[i].id > b[j].id
    ensures DescendingIds(a + b)
  {
    var c := a + b;
    forall i, j | 0 <= i < j < |c|
      ensures c[i].id > c[j].id
    {
      if j < |a| {
        assert c[i] == a[i] && c[j] == a[j];
      } else if i < |a| {
        assert c[i] == a[i] && c[j] == b[j - |a|];
      } else {
        assert c[i] == b[i - |a|] && c[j] == b[j - |a|];
      }
    }
  }

  /** Every id of a list lies in `[lo, hi]`, and so does every id of a second
      one: then so does every id of the two joined. */
  lemma ConcatInRange(a: seq<PubTodo>, b: seq<PubTodo>, lo: int, hi: int)
    requires forall i :: 0 <= i < |a| ==> lo <= a[i].id <= hi
    requires forall i :: 0 <= i < |b| ==> lo <= b[i].id <= hi
    ensures forall i :: 0 <= i < |a + b| ==> lo <= (a + b)[i].id <= hi
  {
    forall i | 0 <= i < |a + b|
      ensures lo <= (a + b)[i].id <= hi
    {
      if i >= |a| {
        assert (a + b)[i] == b[i - |a|];
      }
    }
  }

  /** An honest load-older keeps the invariant. */
  lemma LoadOlderPreservesInvariant(s: FeedState, page: seq<PubTodo>, networkStatus: int)
    requires FeedInvariant(s) && OlderPageHonest(s, page)
    ensures FeedInvariant(LoadOlder(s, page, networkStatus))
  {
    if |page| > 0 {
      var last := page[|page| - 1].id;
      assert forall i :: 0 <= i < |page| ==> last <= page[i].id <= s.newestCursor;
      assert forall i :: 0 <= i < |s.todos| ==> last <= s.todos[i].id <= s.newestCursor;
      ConcatInRange(s.todos, page, last, s.newestCursor);
      ConcatDescending(s.todos, page);
    }
  }

  /** An honest load-new keeps the invariant, also when it throws. */
  lemma LoadNewPreservesInvariant(s: FeedState, result: seq<PubTodo>, networkStatus: int)
    requires FeedInvariant(s) && NewPageHonest(s, result)
    ensures FeedInvariant(LoadNew(s, result, networkStatus).state)
  {
    if |result| > 0 {
      var first := result[0].id;
      assert forall i :: 0 <= i < |result| ==> s.oldestCursor <= result[i].id <= first;
      assert forall i :: 0 <= i < |s.todos| ==> s.oldestCursor <= s.todos[i].id <= first;
      ConcatInRange(result, s.todos, s.oldestCursor, first);
      ConcatDescending(result, s.todos);
    }
  }

  /** Each event answered honestly keeps the invariant. */
  lemma ApplyPreservesInvariant(s: FeedState, e: Event)
    requires FeedInvariant(s) && Honest(s, e)
    ensures FeedInvariant(Apply(s, e))
  {
    match e
    case LoadOlderEvent(page, status) => LoadOlderPreservesInvariant(s, page, status);
    case LoadNewEvent(result, status) => LoadNewPreservesInvariant(s, result, status);
    case ArrivalEvent(latest) =>
    case RenderEvent =>
  }

  /** Every honestly answered run keeps the invariant. */
  lemma {:induction false} RunPreservesInvariant(s: FeedState, events: seq<Event>)
    requires FeedInvariant(s) && HonestRun(s, events)
    ensures FeedInvariant(Run(s, events))
    decreases |events|
  {
    if |events| > 0 {
      ApplyPreservesInvariant(s, events[0]);
      RunPreservesInvariant(Apply(s, events[0]), events[1..]);
    }
  }

  /** Once load-older has come back empty, no event advertises older todos
      again, and the label stays "No more public tasks!". */
  lemma {:induction false} OlderUnavailableIsPermanent(s: FeedState, events: seq<Event>)
    requires !s.olderAvailable
    ensures !Run(s, events).olderAvailable
    ensures LoadOlderLabel(Run(s, events)) == NoMoreText
    decreases |events|
  {
    if |events| > 0 {
      OlderUnavailableIsPermanent(Apply(s, events[0]), events[1..]);
    }
  }

  /** Once set, the error flag stays set whatever happens next. */
  lemma {:induction false} ErrorIsSticky(s: FeedState, events: seq<Event>)
    requires s.error
    ensures Run(s, events).error
    decreases |events|
  {
    if |events| > 0 {
      ErrorIsSticky(Apply(s, events[0]), events[1..]);
    }
  }

  /** An arrival with a new id shows the banner; a settled load-new hides it. */
  lemma BannerFollowsArrivalsAndLoads(s: FeedState, latest: PubTodo, result: seq<PubTodo>, status: int)
    requires latest.id > s.newestCursor
    ensures BannerVisible(Arrival(s, Some(latest)))
    ensures !BannerVisible(LoadNew(s, result, status).state)
  {
  }

  /** On a non-empty list, the cursor bump of an arrival is overwritten by the
      next render: the newer cursor returns to the first displayed id. */
  lemma RenderUndoesArrivalBump(s: FeedState, latest: Option<PubTodo>)
    requires |s.todos| > 0
    ensures Render(Arrival(s, latest)).newestCursor == s.todos[0].id
  {
  }

  /** On an empty list no render resets the cursor after an arrival, so an
      honest load-new asks only for ids above the pushed one and can never
      return the pushed todo itself. */
  lemma ArrivalOnEmptyFeedSkipsPushedTodo(s: FeedState, latest: PubTodo, result: seq<PubTodo>)
    requires |s.todos| == 0 && latest.id > s.newestCursor
    requires NewPageHonest(Render(Arrival(s, Some(latest))), result)
    ensures forall i :: 0 <= i < |result| ==> result[i].id != latest.id
  {
  }

  /** The skip ends once a non-empty load-older fills the list, which needs a
      feed mounted with a latest todo: the next render lowers the newer cursor
      below the pushed id, and a load-new that returns the pushed todo is
      honest and displays it. */
  lemma PushedTodoFetchedOnceListFills(
    s: FeedState, latest: PubTodo, page: seq<PubTodo>, olderStatus: int, newStatus: int)
    requires FeedInvariant(s) && |s.todos| == 0 && latest.id > s.newestCursor
    requires |page| > 0 && OlderPageHonest(Render(Arrival(s, Some(latest))), page)
    ensures
      var filled := Render(LoadOlder(Render(Arrival(s, Some(latest))), page, olderStatus));
      && filled.newestCursor < latest.id
      && NewPageHonest(filled, [latest])
      && latest in LoadNew(filled, [latest], newStatus).state.todos
  {
    var bumped := Render(Arrival(s, Some(latest)));
    assert bumped.oldestCursor == s.oldestCursor;
    assert page[0].id < s.oldestCursor <= s.newestCursor + 1;
    var filled := Render(LoadOlder(bumped, page, olderStatus));
    assert filled.todos == page;
    assert filled.newestCursor == page[0].id;
  }
}

=== FILE: Seqs.dfy ===
/** Order-preserving filtering of sequences (the `Array.prototype.filter` the
    source uses on every cached list) and the sub-sequence relation it produces. */
module Seqs {

  /** `a` can be obtained from `b` by deleting elements, without reordering. */
  predicate IsSubsequence<T(==)>(a: seq<T>, b: seq<T>)
    decreases |b|
  {
    || |a| == 0
    || (&& |b| > 0
        && (|| (a[0] == b[0] && IsSubsequence(a[1..], b[1..]))
            || IsSubsequence(a, b[1..])))
  }

  /** Every sequence is a subsequence of itself. */
  lemma {:induction false} SubsequenceReflexive<T>(s: seq<T>)
    ensures IsSubsequence(s, s)
  {
    if |s| > 0 {
      SubsequenceReflexive(s[1..]);
    }
  }

  /** The elements of `s` for which `keep` holds, in their original order. */
  function Filter<T(==, !new)>(s: seq<T>, keep: T -> bool): (r: seq<T>)
    ensures |r| <= |s|
    ensures forall x :: x in r <==> x in s && keep(x)
    ensures forall x :: multiset(r)[x] == if keep(x) then multiset(s)[x] else 0
    ensures IsSubsequence(r, s)
  {
    if |s| == 0 then []
    else
      assert s == [s[0]] + s[1..];
      if keep(s[0]) then [s[0]] + Filter(s[1..], keep)
      else Filter(s[1..], keep)
  }

  /** Filtering a sequence whose every element is kept returns it unchanged. */
  lemma {:induction false} FilterAllKept<T(!new)>(s: seq<T>, keep: T -> bool)
    requires forall i :: 0 <= i < |s| ==> keep(s[i])
    ensures Filter(s, keep) == s
  {
    if |s| > 0 {
      FilterAllKept(s[1..], keep);
    }
  }

  /** Filtering twice with the same test is filtering once. */
  lemma {:induction false} FilterIdempotent<T(!new)>(s: seq<T>, keep: T -> bool)
    ensures Filter(Filter(s, keep), keep) == Filter(s, keep)
  {
    var r := Filter(s, keep);
    assert forall i :: 0 <= i < |r| ==> keep(r[i]) by {
      forall i | 0 <= i < |r| ensures keep(r[i]) {
        assert r[i] in r;
      }
    }
    FilterAllKept(r, keep);
  }

  /** Two tests that agree on every value select the same elements. */
  lemma {:induction false} FilterExtensional<T(!new)>(s: seq<T>, p: T -> bool, q: T -> bool)
    requires forall x :: p(x) == q(x)
    ensures Filter(s, p) == Filter(s, q)
  {
    if |s| > 0 {
      FilterExtensional(s[1..], p, q);
    }
  }

  /** A test and its negation split a sequence into two parts that together
      hold every element exactly as often as the sequence does. */
  lemma {:induction false} FilterPartition<T(!new)>(s: seq<T>, keep: T -> bool, drop: T -> bool)
    requires forall x :: drop(x) == !keep(x)
    ensures multiset(Filter(s, keep)) + multiset(Filter(s, drop)) == multiset(s)
    ensures |Filter(s, keep)| + |Filter(s, drop)| == |s|
  {
    var a, b := Filter(s, keep), Filter(s, drop);
    assert forall x :: (multiset(a) + multiset(b))[x] == multiset(s)[x];
    assert multiset(a) + multiset(b) == multiset(s);
    assert |multiset(a) + multiset(b)| == |multiset(s)|;
  }
}

=== FILE: TodoItem.dfy ===
/** One row of the private list: the `toggleTodo` mutation (its variables, its
    optimistic response and its cache rewrite) and the `delete_todos` cache
    rewrite. */
module TodoItem {
  import opened Wrappers
  import opened Seqs
  import opened TodoModel

  /** The variables sent with `toggleTodo`. */
  datatype ToggleVariables = ToggleVariables(id: int, isCompleted: bool)

  /** The `update_todos` part of a `toggleTodo` result. */
  datatype ToggleResponse = ToggleResponse(affectedRows: int, returning: seq<Row>)

  /** The variables of a toggle: the same id and the opposite completion. */
  function ToggleVars(todo: Todo): (v: ToggleVariables)
    ensures v.id == todo.id
    ensures v.isCompleted != todo.isCompleted
  {
    ToggleVariables(todo.id, !todo.isCompleted)
  }

  /** The response the client assumes before the server answers: one affected
      row, which is the toggled row carrying the completion the variables ask for. */
  function OptimisticResponse(todo: Todo): (r: ToggleResponse)
    ensures r.affectedRows == 1 && |r.returning| == 1
    ensures r.returning[0].id == ToggleVars(todo).id
    ensures r.returning[0].isCompleted == ToggleVars(todo).isCompleted
    ensures r.returning[0].title == todo.title
  {
    ToggleResponse(1, [Row(todo.id, todo.title, !todo.isCompleted)])
  }

  /** Object spread `{ ...t, ...row }`: the row's fields override the cached
      ones, and `createdAt`, which the row lacks, is kept. */
  function Merge(t: Todo, row: Row): (m: Todo)
    ensures m.id == row.id && m.title == row.title && m.isCompleted == row.isCompleted
    ensures m.createdAt == t.createdAt
  {
    t.(id := row.id, title := row.title, isCompleted := row.isCompleted)
  }

  /** `{ ...t, ...returning[0] }`. With an empty `returning` the spread
      operand is `undefined`, which contributes no fields. */
  function MergeFirst(t: Todo, returning: seq<Row>): (m: Todo)
    ensures |returning| == 0 ==> m == t
    ensures |returning| > 0 ==>
      && m.id == returning[0].id && m.title == returning[0].title
      && m.isCompleted == returning[0].isCompleted
    ensures m.createdAt == t.createdAt
  {
    if |returning| == 0 then t else Merge(t, returning[0])
  }

  /** The cached row after the optimistic response has been merged into it. */
  function OptimisticTodo(t: Todo): Todo
  {
    MergeFirst(t, OptimisticResponse(t).returning)
  }

  /** The list the toggle `update` writes back: every row whose id is the
      toggled id gets the returned row merged over it; every other row, the
      length and the order stay as they were. */
  function ToggleRewrite(cached: seq<Todo>, id: int, returning: seq<Row>): (r: seq<Todo>)
    ensures |r| == |cached|
    ensures forall i :: 0 <= i < |cached| && cached[i].id != id ==> r[i] == cached[i]
    ensures forall i :: 0 <= i < |cached| && cached[i].id == id ==>
      r[i] == MergeFirst(cached[i], returning)
  {
    if |cached| == 0 then []
    else
      var head := if cached[0].id == id then MergeFirst(cached[0], returning) else cached[0];
      [head] + ToggleRewrite(cached[1..], id, returning)
  }

  /** Whether some cached row has the given id. */
  predicate HasId(cached: seq<Todo>, id: int)
  {
    exists i | 0 <= i < |cached| :: cached[i].id == id
  }

  /** The `update` callback of `toggleTodo`. The mutation result is only read
      inside the mapping callback, so a missing result throws only when some
      row matches. */
  function ToggleUpdate(cached: Option<seq<Todo>>, todo: Todo, data: Option<ToggleResponse>)
    : (r: Result<seq<Todo>, CacheError>)
    ensures cached.None? ==> r == Err(NoCachedList)
    ensures cached.Some? && data.None? ==>
      (r == Err(NoMutationData) <==> HasId(cached.value, todo.id))
    ensures cached.Some? && data.None? && !HasId(cached.value, todo.id) ==> r == Ok(cached.value)
    ensures cached.Some? && data.Some? ==>
      r == Ok(ToggleRewrite(cached.value, todo.id, data.value.returning))
  {
    match cached
    case None => Err(NoCachedList)
    case Some(todos) =>
      match data
      case Some(response) => Ok(ToggleRewrite(todos, todo.id, response.returning))
      case None =>
        if HasId(todos, todo.id) then Err(NoMutationData)
        else
          ToggleRewriteAbsentId(todos, todo.id, []);
          Ok(todos)
  }

  /** Rewriting for an id no cached row carries changes nothing. */
  lemma {:induction false} ToggleRewriteAbsentId(cached: seq<Todo>, id: int, returning: seq<Row>)
    requires !HasId(cached, id)
    ensures ToggleRewrite(cached, id, returning) == cached
  {
    var r := ToggleRewrite(cached, id, returning);
    assert forall i :: 0 <= i < |cached| ==> r[i] == cached[i];
  }

  /** Toggling the optimistic row a second time gives back the original row,
      `createdAt` included. */
  lemma OptimisticToggleTwice(t: Todo)
    ensures OptimisticTodo(t).isCompleted == !t.isCompleted
    ensures OptimisticTodo(OptimisticTodo(t)) == t
  {
  }

  /** Two optimistic toggles of a row, the second issued from the row the
      first one produced, leave the cached list as it was, provided the
      cached rows with that id agree with the row on title and completion. */
  lemma {:induction false} ToggleTwiceRestoresCache(cached: seq<Todo>, t: Todo)
    requires forall i :: 0 <= i < |cached| && cached[i].id == t.id ==>
      cached[i].title == t.title && cached[i].isCompleted == t.isCompleted
    ensures
      var once := ToggleRewrite(cached, t.id, OptimisticResponse(t).returning);
      var t' := OptimisticTodo(t);
      ToggleRewrite(once, t'.id, OptimisticResponse(t').returning) == cached
  {
    var once := ToggleRewrite(cached, t.id, OptimisticResponse(t).returning);
    var t' := OptimisticTodo(t);
    var twice := ToggleRewrite(once, t'.id, OptimisticResponse(t').returning);
    forall i | 0 <= i < |cached|
      ensures twice[i] == cached[i]
    {
      if cached[i].id == t.id {
        assert once[i] == Merge(cached[i], Row(t.id, t.title, !t.isCompleted));
      }
    }
  }

  /** The list the delete `update` writes back: the cached rows whose id
      differs from the deleted one, in their original order. */
  function DeleteRewrite(cached: seq<Todo>, id: int): (r: seq<Todo>)
    ensures forall t :: t in r <==> t in cached && t.id != id
    ensures forall t :: multiset(r)[t] == if t.id == id then 0 else multiset(cached)[t]
    ensures IsSubsequence(r, cached)
  {
    Filter(cached, (t: Todo) => t.id != id)
  }

  /** Deleting an id no cached row carries leaves the list unchanged. */
  lemma DeleteAbsentIdUnchanged(cached: seq<Todo>, id: int)
    requires !HasId(cached, id)
    ensures DeleteRewrite(cached, id) == cached
  {
    FilterAllKept(cached, (t: Todo) => t.id != id);
  }

  /** The `update` callback of `delete_todos`. */
  function DeleteUpdate(cached: Option<seq<Todo>>, todo: Todo): (r: Result<seq<Todo>, CacheError>)
    ensures cached.None? <==> r == Err(NoCachedList)
    ensures r.Ok? ==> forall t :: t in r.value ==> t.id != todo.id
    ensures r.Ok? ==> forall t :: t in cached.value && t.id != todo.id ==> t in r.value
    ensures r.Ok? ==>
      forall t :: multiset(r.value)[t] == if t.id == todo.id then 0 else multiset(cached.value)[t]
    ensures r.Ok? ==> IsSubsequence(r.value, cached.value)
    ensures cached.Some? ==> r == Ok(DeleteRewrite(cached.value, todo.id))
  {
    match cached
    case None => Err(NoCachedList)
    case Some(todos) => Ok(DeleteRewrite(todos, todo.id))
  }
}

=== FILE: TodoModel.dfy ===
/** The shapes of the private-list rows shared by the list and its items. */
module TodoModel {

  /** A cached row of the `getMyTodos` query. `createdAt` is carried as an
      opaque value: nothing in the model orders by it. */
  datatype Todo = Todo(id: int, title: string, isCompleted: bool, createdAt: string)

  /** A row returned by the `update_todos` mutation: it has no `created_at`. */
  datatype Row = Row(id: int, title: string, isCompleted: bool)

  /** Why a cache `update` callback throws instead of writing the list back. */
  datatype CacheError =
    | NoCachedList     // `readQuery` found no cached `getMyTodos` result
    | NoMutationData   // `data` or `data.update_todos` was null when it was read
}

=== FILE: Wrappers.dfy ===
/** Optional values and error-carrying results, used where the source reads a
    nullable value or where a cache handler can throw. */
module Wrappers {

  /** A value that may be absent (`null` / `undefined` in the source). */
  datatype Option<+T> = None | Some(value: T)

  /** The outcome of a handler that either produces a value or stops with an error. */
  datatype Result<+T, +E> = Ok(value: T) | Err(error: E)
}
